=== FILE: README.md ===
# Organisation profile wizard: the profile state machine

This project is a Dafny model of the logic in `app.js` of a single-page
self-assessment wizard. The page keeps one global record, `appData`, whose
`phase1.theBasics` holds the "The Basics" form. Four handlers act on it:

- the new-profile button resets it to a fixed default;
- submitting the basics form captures the form into `theBasics`;
- saving downloads it as `<organizationName>.json`, or refuses;
- loading a file replaces it with whatever `JSON.parse` returns.

`renderUI` projects the record back onto the form. It also unlocks the
"current state" step card and sets the progress bar to one of three steps.

The model is functional. `appData` is a JavaScript value (`JsValues.Value`),
because a loaded file replaces it with no shape check. The handlers read that
value through JavaScript's own rules: truthiness, property access that throws
on null or undefined, and string conversion. The page is abstracted as data.
`Form.Fields` is the basics form: text fields, the remote flag, two radio
groups (the index of the checked option) and two checkbox groups (one flag
per option). `Form.Ui` adds the step card's lock and the progress count.
`Form.Layout` holds what the page markup fixes: the option values of each
choice group and the state `form.reset()` restores. Each handler is a total
function on `App.Machine`, which pairs `appData` with the page. A thrown
exception appears as a `Completion` or a `Run` that records how far the DOM
writes got. `App.Step` dispatches a user action to its handler.

Modules: `Wrappers` (Option, Completion, Run), `JsValues`, `Profile` (default
record, basics record, the write to `theBasics`), `Form` (capture and render),
`FormLaws` (round trips between them), `App` (handlers) and `AppLaws`
(properties across several actions).

Two behaviours of the code may be unexpected; the model follows the code:

- Save has no fallback file name. Without a truthy organisation name it
  refuses (`App.OnSave`).
- Load does not check the shape of what it parsed. Any JSON value replaces
  `appData` before anything is read from it. A later exception in the success
  message is swallowed and skips the render (`App.OnLoad`,
  `AppLaws.LoadUnshapedFile`). This includes a file whose basics are null: it
  is reported as an error, yet it has already replaced the state, and the
  page keeps showing the previous form (`AppLaws.LoadNullBasicsKeepsScreen`).

## Model

| member | source | states |
|---|---|---|
| Profile.Reset | app.js:67-69 | The reset profile has exactly one key, `phase1`, holding exactly `theBasics`, `currentState` and `futureState`, all null; reading the basics gives null |
| Profile.BasicsOf | app.js:111 | Reading `appData.phase1.theBasics` throws exactly when `appData` or its `phase1` is null or undefined, and otherwise yields the stored property (undefined when missing) |
| Profile.CommitBasics | app.js:160-169 | Storing a record throws exactly when `appData` or `phase1` is nullish; with an object `phase1` the new record is the basics afterwards, the other `phase1` keys and other top-level keys keep their values, and a primitive `phase1` leaves `appData` as it was |
| Profile.Encode | app.js:160-169 | The stored record is an object, hence truthy even for an empty form, with exactly the eight keys; a radio key holds undefined exactly when its group had nothing checked, and no other key is null or undefined |
| Profile.TextListInjective | app.js:166-168 | Distinct lists of checkbox values are stored as distinct arrays |
| Profile.EncodeInjective | app.js:160-169 | No two different captured records are stored as the same value, so the stored record determines everything the form gave it |
| Form.CheckedIndices | app.js:158 | The positions listed are exactly the checked boxes, each once, in strictly increasing (control) order |
| Form.Capture | app.js:158-169 | The captured record copies the text fields and the remote flag; a radio value is absent exactly when no option of its group is checked and otherwise is that option's value; each checkbox list is the values of the checked boxes in control order |
| Form.FirstIndex | app.js:121 | The option found by value is the first one carrying that value, and none is found exactly when no option carries it |
| Form.Render | app.js:110-153 | Render changes nothing at all when the basics cannot be read; with falsy basics the form is exactly its reset state; with truthy basics it is the reset form repopulated; it completes unless the basics cannot be read or repopulating throws, and on completion the card is unlocked at one step done exactly when the basics are truthy; it never locks the card; a throw while repopulating leaves card and progress as they were |
| Form.CheckedValues | app.js:158 | Every value collected from a checkbox group is the value of a box that is checked |
| Form.Chosen | app.js:162 | A radio group yields nothing exactly when no option is checked, and otherwise the checked option's value |
| Form.TextOf | app.js:119 | An input assigned a falsy value shows the empty text and a string shows as itself; the assignment throws exactly when a truthy value cannot be converted to text |
| Form.ChooseRadio | app.js:120-123 | Re-checking a radio group throws exactly when a truthy value cannot be converted; a truthy value whose text some option carries checks the first such option, and a falsy value or one no option carries leaves the group as it was |
| Form.MarkItems | app.js:128-131 | Checking boxes for the elements of a list completes exactly when every element converts to text; it never unchecks a box, and when it completes the checked boxes are exactly those checked before plus, for each element, the first box whose value is the element's text |
| Form.CheckEach | app.js:128-131 | The optional-chained walk of a list does nothing for null or undefined, throws and changes nothing for any other non-array, and for an array completes exactly when every element converts, checking the boxes as for a list |
| Form.FillFirst | app.js:119-126 | The first half of a repopulation completes exactly when the name, size, year and location values can be shown, and then shows their texts, the size option the radio rule picks and the remote flag's truthiness; the checkbox groups and the legal radio are untouched |
| Form.FillRest | app.js:128-139 | The second half completes exactly when both lists can be walked and the legal value shown, and then sets each group by its rule; a falsy legal value or a missing list leaves its group as it was, no box is unchecked, and the other fields are untouched |
| Form.Populate | app.js:117-139 | For any record, not only a submitted one: repopulation completes exactly when every value it reads can be shown; then each text input holds the property's text (empty when falsy or missing), the remote box the flag's truthiness, and each radio and checkbox group is set by its rule; a falsy radio value or a missing list leaves its group as it was, and no box is ever unchecked |
| FormLaws.PopulateReadsOnly | app.js:117-139 | Two records alike in the eight properties read repopulate the form alike |
| FormLaws.RenderReadsOnly | app.js:110-150 | Two profiles whose basics are alike in truthiness and in the eight properties read render alike |
| FormLaws.CheckedValuesMembers | app.js:158 | A value is captured from a checkbox group exactly when some checked box of the group carries it |
| FormLaws.MarkTexts | app.js:128-131 | Checking boxes from a list of strings never throws, and with distinct option values it checks exactly the boxes whose value is listed, keeping those already checked |
| FormLaws.RadioRoundTrip | app.js:120-123 | A captured radio value re-checks the very option it was read from, and an absent one checks nothing |
| FormLaws.PopulateEncodedCompletes | app.js:117-139 | Repopulating the form from any submitted record runs to the end without throwing |
| FormLaws.MarkCaptured | app.js:128-139 | Re-checking the captured values of a group that reset left unchecked restores exactly the boxes they were captured from |
| FormLaws.FillFirstRoundTrip | app.js:119-126 | Rendering a captured record restores the name, year and location inputs, the size radio and the remote box |
| FormLaws.FillRestRoundTrip | app.js:128-139 | Rendering a captured record restores the identity boxes, the legal-structure radio and the funding boxes |
| FormLaws.RenderCaptureRoundTrip | app.js:115-139 | For any form, rendering the record captured from it gives back that very form, so capturing again gives back the same record |
| App.Init | app.js:5-63 | At page load the basics are null, the form is in its reset state and the step card is locked with no step done |
| App.OnNewProfile | app.js:39-43 | Whatever the prior profile, the new one is the reset default with null basics, the form is in its reset state and the step card keeps its lock state |
| App.OnSubmit | app.js:156-172 | With an object `phase1` the stored basics become the record captured from the form, every other part of `appData` (`currentState`, `futureState`, other keys) is kept, the form shows the stored record repopulated onto the reset form, the card is unlocked at one step and nothing escapes; a nullish `appData` or `phase1` throws and changes nothing; a primitive `phase1` stores nothing and the render then clears the form |
| App.RenderStored | app.js:143-150 | Rendering a profile whose basics are a submitted record completes and shows the step card unlocked at one step done |
| App.OnSave | app.js:71-78 | Save is refused exactly when the basics or their organisation name are falsy; it throws exactly when the basics cannot be read or the name cannot be converted to text; a download carries the whole profile named after the organisation with `.json` appended; save never does nothing silently |
| App.LoadedName | app.js:99 | The success message's name lookup throws exactly when `phase1` or the basics are null or missing or the name cannot be converted to text, and otherwise yields the name's text |
| App.OnLoad | app.js:95-104 | A parse failure leaves page and profile unchanged; a parsed value becomes the profile whatever its shape; the page is re-rendered exactly when the name lookup succeeds, and otherwise stays as it was |
| App.Step | app.js:36-53 | Every action keeps the page well formed, never locks the step card or lowers progress, save changes no state, and picking no file does nothing |
| AppLaws.Replay | app.js:36-53 | Any sequence of actions from a well-formed page ends in a well-formed page |
| AppLaws.UnlockIsPermanent | app.js:143-150 | Once unlocked, the step card stays unlocked and progress never drops, across any sequence of actions including resets and loads |
| AppLaws.NewProfileIdempotent | app.js:39-43 | Starting a new profile twice gives the same page and profile as starting it once |
| AppLaws.SubmitKeepsForm | app.js:160-171 | Submitting leaves the form exactly as the user left it, and the stored basics are what capturing it again would give |
| AppLaws.LastSubmitWins | app.js:160-169 | After two submits the stored basics are exactly those of the second form, nothing of the first surviving |
| AppLaws.SaveStoredBasics | app.js:73-77 | With submitted basics, save is refused exactly when the name is empty, and otherwise downloads the profile as the name followed by `.json` |
| AppLaws.SaveAfterResetRefused | app.js:73-76 | Right after a new profile is started, save is refused |
| AppLaws.LoadNullBasicsKeepsScreen | app.js:97-103 | Loading a file whose basics are null replaces the profile but leaves the page showing the previous form and step state |
| AppLaws.LoadUnshapedFile | app.js:97-99 | Loading a parsed value with no readable basics still replaces the profile; afterwards save and submit throw without changing anything, and starting a new profile recovers |
| Profile.DefaultSurvivesCopy | app.js:68 | The JSON round trip that `resetAppData` performs gives back the default unchanged |
| JsValues.PropOfCopy | app.js:78 | After a JSON round trip, reading any property gives the round trip of what it held, so a dropped undefined-valued key still reads as undefined |
| FormLaws.EncodedCopy | app.js:160-169 | A submitted record saved and parsed back keeps the key of a radio group exactly when an option was checked, and every property the render reads is unchanged |
| AppLaws.CopyRendersAlike | app.js:97-100 | After a JSON round trip a profile holding a submitted record still has readable basics, its load message shows the same name, and it renders exactly as before |
| AppLaws.LoadStoredCopy | app.js:97-100 | The parsed copy of a profile holding the record captured from a form, loaded into any page, becomes the profile and shows that form with the step card unlocked at one step done |
| AppLaws.SaveLoadRoundTrip | app.js:71-107 | The file saved after a submit, parsed and loaded into any page, brings back the saved profile less its undefined-valued keys, the submitted form and the unlocked step card |

## Left out

- DOM event wiring, showing and hiding screens, and the assessment modal (app.js:12-64): they move no data. Only the confirmed branch of the new-profile button is modelled.
- The version and date header (app.js:14-20): the date depends on the clock and the locale.
- The download mechanics (app.js:79-88): a save is modelled as a `Download` effect carrying the file name and the profile value. The JSON text is not modelled; what parsing it back yields is `JsonCopy`, which drops undefined-valued keys.
- The `FileReader` read and `JSON.parse` (app.js:92-97, app.js:105-106): a load event carries the parse result as `Option<Value>`. Picking no file is the `LoadNothing` event.
- `alert`, `confirm` and `console.log`: messages only. An exception escaping a handler is the `Uncaught` effect.
- CSS classes and status texts of the step card: they are reduced to a lock flag and a count of completed steps.
- The page markup is not part of this model. Option values and the form's reset state are the `Layout` parameter. The round-trip lemmas assume `PlainLayout`: distinct option values, none containing a quote, backslash or line break, non-empty radio values, and no choice checked after reset. Every radio and checkbox is taken to carry a `value` attribute: one without it reads as `"on"`, which the lookup by value never matches, and a `Layout` cannot express such a control.
- App.Init: the markup's initial step card is taken to be locked with no step done, and its initial form to equal the reset state.
- Overlapping file reads are not modelled as concurrent. Each completed read is one `LoadRead` event, applied in completion order, so the last read to finish wins.
- Form.Render: CSS selector syntax is not modelled. A value containing a quote or a backslash is looked up as plain text, whereas `querySelector` may reject it or unescape it.
- Form.Render: HTML value sanitisation of typed inputs (for example a number input) is not modelled; an assigned value is kept as given.
- Profile.CommitBasics: the script is taken to be non-strict, where a write to a primitive `phase1` is silently dropped. As a module or strict-mode script that write would throw a TypeError.
- Profile.CommitBasics: a `phase1` that is an array is treated like other non-object values (the write is dropped), whereas JavaScript attaches a named property to the array.
- Form.Populate, Form.FillFirst, Form.FillRest, Form.MarkItems, Form.CheckEach: when a conversion throws part-way, the contract says that a falsy radio value or a missing list leaves its group alone and that no box is unchecked, but not which of the earlier fields were already written; each function writes them in source order (for a list, the boxes of the elements before the failing one are checked).
- JsValues.Value: numbers are integers. Fractional and very large numbers, and their text form, are not modelled.

=== FILE: app.dfy ===
/** The page as a state machine: the global `appData` together with what the
    user sees, and one transition per handler of `app.js`. File reading and
    `JSON.parse` are outside the model: a load event carries the parse result. */
module App {
  import opened Wrappers
  import opened JsValues
  import opened Profile
  import opened Form
  import opened FormLaws

  /** The global `appData` and the visible page. */
  datatype Machine = Machine(app: Value, ui: Ui)

  /** What the user does. `Edit` stands for any change typed or clicked into the
      basics form; `LoadRead` is a file read to completion, carrying what
      `JSON.parse` made of it (`None` when it threw). */
  datatype Event =
    | NewProfile
    | SubmitBasics
    | Save
    | LoadNothing
    | LoadRead(parsed: Option<Value>)
    | Edit(form: Fields)

  /** What a handler does beyond the state: nothing visible, the save refusal,
      a download of `data` as `filename`, or an exception escaping the handler.
      The file holds `JSON.stringify(data)`; parsing it back gives `JsonCopy(data)`. */
  datatype Effect = Quiet | Refused | Download(filename: string, data: Value) | Uncaught

  datatype Transition = Transition(next: Machine, effect: Effect)

  /** The form has the layout's controls, and the step card and progress bar
      are in one of their two states: locked at zero steps or unlocked at one. */
  predicate Valid(L: Layout, m: Machine) {
    && ValidLayout(L)
    && Fits(L, m.ui.form)
    && m.ui.stepsDone == (if m.ui.unlocked then 1 else 0)
  }

  predicate EventFits(L: Layout, e: Event) {
    e.Edit? ==> Fits(L, e.form)
  }

  /** Page load: `appData` is reset, then rendered onto the markup's initial
      form with the step card locked and no step done. */
  function Init(L: Layout): (m: Machine)
    requires ValidLayout(L)
    ensures Valid(L, m)
    ensures BasicsOf(m.app) == Normal(Null)
    ensures m.ui == Ui(L.defaults, false, 0)
  {
    var app := Reset();
    Machine(app, Render(L, app, Ui(L.defaults, false, 0)).state)
  }

  /** The confirmed new-profile button: reset, then render. Whatever the prior
      profile, the basics are gone and the form is back in its reset state;
      the step card keeps its lock state. */
  function OnNewProfile(L: Layout, m: Machine): (r: Machine)
    requires Valid(L, m)
    ensures r.app == Reset()
    ensures BasicsOf(r.app) == Normal(Null)
    ensures r.ui == m.ui.(form := L.defaults)
  {
    var app := Reset();
    Machine(app, Render(L, app, m.ui).state)
  }

  /** `handleBasicsSubmit`: capture the form, store the record at
      `appData.phase1.theBasics`, render. */
  function OnSubmit(L: Layout, m: Machine): (r: Transition)
    requires Valid(L, m)
    ensures Nullish(m.app) || Nullish(Prop(m.app, "phase1")) ==> r == Transition(m, Uncaught)
    ensures Prop(m.app, "phase1").Obj? ==>
              && r.effect == Quiet
              && BasicsOf(r.next.app) == Normal(Encode(Capture(L, m.ui.form)))
              && Prop(r.next.app, "phase1").Obj?
              && r.next.app == CommitBasics(m.app, Capture(L, m.ui.form)).value
              && r.next.ui.form == Populate(L, L.defaults, Encode(Capture(L, m.ui.form))).state
              && r.next.ui.unlocked && r.next.ui.stepsDone == 1
    ensures !Nullish(m.app) && !Nullish(Prop(m.app, "phase1")) && !Prop(m.app, "phase1").Obj? ==>
              r == Transition(Machine(m.app, m.ui.(form := L.defaults)), Quiet)
  {
    var b := Capture(L, m.ui.form);
    match CommitBasics(m.app, b)
    case Thrown => Transition(m, Uncaught)
    case Normal(app) =>
      var shown := Render(L, app, m.ui);
      RenderStored(L, app, m.ui, b);
      Transition(Machine(app, shown.state), if shown.ok then Quiet else Uncaught)
  }

  /** Rendering a profile whose basics are a submitted record runs to the end
      and unlocks the step card. */
  lemma RenderStored(L: Layout, app: Value, ui: Ui, b: Basics)
    requires ValidLayout(L) && Fits(L, ui.form)
    ensures BasicsOf(app) == Normal(Encode(b)) ==>
              var r := Render(L, app, ui);
              r.ok && r.state.unlocked && r.state.stepsDone == 1
  {
    PopulateEncodedCompletes(L, L.defaults, b);
  }

  /** `saveProfileToFile`: refused unless the basics and their organisation
      name are both truthy; otherwise the whole profile is downloaded as
      `<organizationName>.json`. There is no fallback name. Reading a missing
      `phase1`, or converting a name that cannot become a string, throws. */
  function OnSave(app: Value): (r: Effect)
    ensures r.Refused? <==> BasicsOf(app).Normal? &&
                            (!Truthy(BasicsOf(app).value) || !Truthy(Prop(BasicsOf(app).value, "organizationName")))
    ensures r.Uncaught? <==> BasicsOf(app).Thrown? ||
                             (Truthy(BasicsOf(app).value) && Truthy(Prop(BasicsOf(app).value, "organizationName"))
                              && ToText(Prop(BasicsOf(app).value, "organizationName")).Thrown?)
    ensures r.Download? ==> r.data == app &&
                            r.filename == ToText(Prop(BasicsOf(app).value, "organizationName")).value + ".json"
    ensures !r.Quiet?
  {
    match BasicsOf(app)
    case Thrown => Uncaught
    case Normal(basics) =>
      var name := Prop(basics, "organizationName");
      if !Truthy(basics) || !Truthy(name) then Refused
      else
        match ToText(name)
        case Thrown => Uncaught
        case Normal(text) => Download(text + ".json", app)
  }

  /** The success message's `appData.phase1.theBasics.organizationName`, read
      right after `appData` has been replaced. It throws when `phase1` or the
      basics are null or missing, or when the name cannot become text, and
      a throw skips the render. */
  function LoadedName(app: Value): (r: Completion<string>)
    ensures r.Thrown? <==> BasicsOf(app).Thrown? || Nullish(BasicsOf(app).value)
                           || ToText(Prop(BasicsOf(app).value, "organizationName")).Thrown?
    ensures r.Normal? ==> r.value == ToText(Prop(BasicsOf(app).value, "organizationName")).value
  {
    match BasicsOf(app)
    case Thrown => Thrown
    case Normal(basics) =>
      match Get(basics, "organizationName")
      case Thrown => Thrown
      case Normal(name) => ToText(name)
  }

  /** The reader's `onload` body: a parse failure changes nothing; a parsed
      value replaces `appData` wholesale, shape or no shape, and only then is
      anything read from it. Exceptions from the name lookup or from the
      render are swallowed; the former skips the render. */
  function OnLoad(L: Layout, m: Machine, parsed: Option<Value>): (r: Machine)
    requires Valid(L, m)
    ensures parsed.None? ==> r == m
    ensures parsed.Some? ==> r.app == parsed.value
    ensures parsed.Some? && LoadedName(parsed.value).Thrown? ==> r.ui == m.ui
    ensures parsed.Some? && LoadedName(parsed.value).Normal? ==> r.ui == Render(L, parsed.value, m.ui).state
  {
    match parsed
    case None => m
    case Some(app) =>
      if LoadedName(app).Thrown? then Machine(app, m.ui)
      else Machine(app, Render(L, app, m.ui).state)
  }

  /** One user action. Every action keeps the machine valid, and none of them
      locks the step card or lowers the progress once shown. */
  function Step(L: Layout, m: Machine, e: Event): (r: Transition)
    requires Valid(L, m) && EventFits(L, e)
    ensures Valid(L, r.next)
    ensures m.ui.unlocked ==> r.next.ui.unlocked
    ensures m.ui.stepsDone <= r.next.ui.stepsDone
    ensures e.Save? ==> r.next == m
    ensures e.LoadNothing? ==> r == Transition(m, Quiet)
  {
    match e
    case NewProfile => Transition(OnNewProfile(L, m), Quiet)
    case SubmitBasics => OnSubmit(L, m)
    case Save => Transition(m, OnSave(m.app))
    case LoadNothing => Transition(m, Quiet)
    case LoadRead(parsed) => Transition(OnLoad(L, m, parsed), Quiet)
    case Edit(form) => Transition(m.(ui := m.ui.(form := form)), Quiet)
  }
}

=== FILE: app_laws.dfy ===
/** Properties of the page's state machine that relate several handler calls. */
module AppLaws {
  import opened Wrappers
  import opened JsValues
  import opened Profile
  import opened Form
  import opened FormLaws
  import opened App

  /** A run of user actions from `m`. */
  function Replay(L: Layout, m: Machine, es: seq<Event>): (r: Machine)
    requires Valid(L, m)
    requires forall i :: 0 <= i < |es| ==> EventFits(L, es[i])
    ensures Valid(L, r)
    decreases |es|
  {
    if |es| == 0 then m else Replay(L, Step(L, m, es[0]).next, es[1..])
  }

  /** Once the "current state" step is unlocked and progress reads one of three,
      no sequence of actions — resets and loads included — locks it again or
      lowers the progress. */
  lemma {:induction false} UnlockIsPermanent(L: Layout, m: Machine, es: seq<Event>)
    requires Valid(L, m)
    requires forall i :: 0 <= i < |es| ==> EventFits(L, es[i])
    ensures m.ui.unlocked ==> Replay(L, m, es).ui.unlocked
    ensures m.ui.stepsDone <= Replay(L, m, es).ui.stepsDone
    decreases |es|
  {
    if |es| > 0 {
      UnlockIsPermanent(L, Step(L, m, es[0]).next, es[1..]);
    }
  }

  /** Starting a new profile twice is the same as starting it once. */
  lemma NewProfileIdempotent(L: Layout, m: Machine)
    requires Valid(L, m)
    ensures Step(L, Step(L, m, NewProfile).next, NewProfile) == Step(L, m, NewProfile)
  {
  }

  /** Submitting the basics leaves the form as the user left it, and the record
      stored is the one a second capture would read. */
  lemma SubmitKeepsForm(L: Layout, m: Machine)
    requires Valid(L, m) && PlainLayout(L) && Prop(m.app, "phase1").Obj?
    ensures Step(L, m, SubmitBasics).next.ui.form == m.ui.form
    ensures BasicsOf(Step(L, m, SubmitBasics).next.app) == Normal(Encode(Capture(L, Step(L, m, SubmitBasics).next.ui.form)))
  {
    var b := Capture(L, m.ui.form);
    var app := CommitBasics(m.app, b).value;
    assert BasicsOf(app) == Normal(Encode(b));
    var shown := Render(L, app, m.ui);
    assert shown.state.form == Populate(L, L.defaults, Encode(b)).state;
    RenderCaptureRoundTrip(L, m.ui.form);
    assert shown.state.form == m.ui.form;
    assert OnSubmit(L, m).next == Machine(app, shown.state);
  }

  /** A second submit replaces the first record wholesale: whatever was stored
      before, only the latest form counts. */
  lemma LastSubmitWins(L: Layout, m: Machine, f1: Fields, f2: Fields)
    requires Valid(L, m) && Fits(L, f1) && Fits(L, f2) && Prop(m.app, "phase1").Obj?
    ensures var m2 := Step(L, Step(L, m, Edit(f1)).next, SubmitBasics).next;
            var m4 := Step(L, Step(L, m2, Edit(f2)).next, SubmitBasics).next;
            BasicsOf(m4.app) == Normal(Encode(Capture(L, f2)))
  {
    var m1 := Step(L, m, Edit(f1)).next;
    assert m1 == Machine(m.app, m.ui.(form := f1));
    var m2 := Step(L, m1, SubmitBasics).next;
    assert m2 == OnSubmit(L, m1).next;
    assert Prop(m2.app, "phase1").Obj?;
    var m3 := Step(L, m2, Edit(f2)).next;
    assert m3 == Machine(m2.app, m2.ui.(form := f2));
    assert Step(L, m3, SubmitBasics).next == OnSubmit(L, m3).next;
  }

  /** Save on a stored record: refused exactly when the name is empty, and
      otherwise the file is named after the organisation. */
  lemma SaveStoredBasics(app: Value, b: Basics)
    requires BasicsOf(app) == Normal(Encode(b))
    ensures b.organizationName == "" ==> OnSave(app) == Refused
    ensures b.organizationName != "" ==> OnSave(app) == Download(b.organizationName + ".json", app)
  {
    ReadEncoded(b);
  }

  /** A fresh profile cannot be saved. */
  lemma SaveAfterResetRefused(L: Layout, m: Machine)
    requires Valid(L, m)
    ensures Step(L, Step(L, m, NewProfile).next, Save).effect == Refused
  {
  }

  /** Loading a file whose basics are null replaces `appData` but, because the
      success message's name lookup throws, skips the render: the page keeps
      showing the previous form and step state. */
  lemma LoadNullBasicsKeepsScreen(L: Layout, m: Machine, v: Value)
    requires Valid(L, m) && BasicsOf(v) == Normal(Null)
    ensures Step(L, m, LoadRead(Some(v))).next == Machine(v, m.ui)
  {
  }

  /** A parsed file whose `phase1` is missing or null (or that is itself null)
      still replaces `appData`. The
      page then cannot save or submit (both throw) until a new profile is
      started, which always recovers. */
  lemma LoadUnshapedFile(L: Layout, m: Machine, v: Value)
    requires Valid(L, m) && BasicsOf(v).Thrown?
    ensures Step(L, m, LoadRead(Some(v))).next == Machine(v, m.ui)
    ensures Step(L, Machine(v, m.ui), Save) == Transition(Machine(v, m.ui), Uncaught)
    ensures Step(L, Machine(v, m.ui), SubmitBasics) == Transition(Machine(v, m.ui), Uncaught)
    ensures Step(L, Machine(v, m.ui), NewProfile).next.app == Reset()
  {
  }

  /** After a JSON round trip, a profile whose basics are a submitted record
      still has readable basics, shows the same name in the load message and
      renders exactly as before. */
  lemma CopyRendersAlike(L: Layout, app: Value, ui: Ui, b: Basics)
    requires ValidLayout(L) && Fits(L, ui.form) && BasicsOf(app) == Normal(Encode(b))
    ensures BasicsOf(JsonCopy(app)) == Normal(JsonCopy(Encode(b)))
    ensures LoadedName(JsonCopy(app)) == Normal(b.organizationName)
    ensures Render(L, JsonCopy(app), ui) == Render(L, app, ui)
  {
    var p := Prop(app, "phase1");
    PropOfCopy(app, "phase1");
    PropOfCopy(p, "theBasics");
    EncodedCopy(b);
    ReadEncoded(b);
    var c := JsonCopy(Encode(b));
    PropOfCopy(Encode(b), "organizationName");
    RenderReadsOnly(L, JsonCopy(app), app, ui);
  }

  /** The parsed copy of a profile holding the record captured from form `f`,
      loaded into any page, shows `f` with the step card unlocked. */
  lemma LoadStoredCopy(L: Layout, other: Machine, app: Value, f: Fields)
    requires Valid(L, other) && PlainLayout(L) && Fits(L, f)
    requires BasicsOf(app) == Normal(Encode(Capture(L, f)))
    ensures Step(L, other, LoadRead(Some(JsonCopy(app)))).next == Machine(JsonCopy(app), Ui(f, true, 1))
  {
    var b := Capture(L, f);
    CopyRendersAlike(L, app, other.ui, b);
    RenderCaptureRoundTrip(L, f);
    RenderStored(L, app, other.ui, b);
    assert Render(L, app, other.ui).state.form == f;
  }

  /** The file a save produces, parsed and loaded into any page, brings back
      the saved profile less its undefined-valued keys, and, rendered, the form
      it was submitted from with the step card unlocked. */
  lemma SaveLoadRoundTrip(L: Layout, m: Machine, other: Machine)
    requires Valid(L, m) && Valid(L, other) && PlainLayout(L)
    requires Prop(m.app, "phase1").Obj? && m.ui.form.name != ""
    ensures var saved := Step(L, m, SubmitBasics).next;
            var t := Step(L, saved, Save);
            && t.effect == Download(m.ui.form.name + ".json", saved.app)
            && BasicsOf(JsonCopy(t.effect.data)) == Normal(JsonCopy(Encode(Capture(L, m.ui.form))))
            && Step(L, other, LoadRead(Some(JsonCopy(t.effect.data)))).next
               == Machine(JsonCopy(saved.app), Ui(m.ui.form, true, 1))
  {
    var b := Capture(L, m.ui.form);
    var saved := Step(L, m, SubmitBasics).next;
    assert BasicsOf(saved.app) == Normal(Encode(b));
    SaveStoredBasics(saved.app, b);
    CopyRendersAlike(L, saved.app, other.ui, b);
    LoadStoredCopy(L, other, saved.app, m.ui.form);
  }
}

=== FILE: form.dfy ===
/** The basics form and the step card, as plain data, with the two directions
    between it and the profile: `Capture` (form to record, `handleBasicsSubmit`)
    and `Render` (profile to form and progress, `renderUI`). */
module Form {
  import opened Wrappers
  import opened JsValues
  import opened Profile

  /** The controls of the basics form. A radio group holds the index of its
      checked option, if any, so at most one option is ever checked; a
      checkbox group holds one flag per option, in control order. */
  datatype Fields = Fields(
    name: string,
    size: Option<nat>,
    year: string,
    location: string,
    remote: bool,
    identity: seq<bool>,
    legal: Option<nat>,
    funding: seq<bool>)

  /** What the page's markup fixes: the `value` attribute of each option of the
      four choice groups, in document order, and the state `form.reset()`
      restores. */
  datatype Layout = Layout(
    sizes: seq<string>,
    identities: seq<string>,
    legals: seq<string>,
    fundings: seq<string>,
    defaults: Fields)

  predicate ChoiceFits(c: Option<nat>, options: seq<string>) {
    c.Some? ==> c.value < |options|
  }

  /** The form has exactly the controls the layout declares. */
  predicate Fits(L: Layout, f: Fields) {
    && ChoiceFits(f.size, L.sizes)
    && ChoiceFits(f.legal, L.legals)
    && |f.identity| == |L.identities|
    && |f.funding| == |L.fundings|
  }

  predicate ValidLayout(L: Layout) {
    Fits(L, L.defaults)
  }

  predicate Distinct(xs: seq<string>) {
    forall i, j :: 0 <= i < j < |xs| ==> xs[i] != xs[j]
  }

  /** An option value that a quoted CSS attribute selector matches as written:
      no quote, backslash or line break that `querySelector` would reject or
      unescape. */
  predicate SelectorSafe(s: string) {
    forall i :: 0 <= i < |s| ==> s[i] !in {'"', '\\', '\n', '\r', '\U{C}'}
  }

  predicate AllSelectorSafe(xs: seq<string>) {
    forall i :: 0 <= i < |xs| ==> SelectorSafe(xs[i])
  }

  /** The markup under which a submitted record survives a render: option values
      are distinct within each group and safe inside a selector, radio values
      are non-empty (an empty one is falsy and is never re-checked), and reset
      leaves no choice checked. */
  predicate PlainLayout(L: Layout) {
    && Distinct(L.sizes) && Distinct(L.identities) && Distinct(L.legals) && Distinct(L.fundings)
    && AllSelectorSafe(L.sizes) && AllSelectorSafe(L.identities)
    && AllSelectorSafe(L.legals) && AllSelectorSafe(L.fundings)
    && (forall i :: 0 <= i < |L.sizes| ==> L.sizes[i] != "")
    && (forall i :: 0 <= i < |L.legals| ==> L.legals[i] != "")
    && L.defaults.size.None? && L.defaults.legal.None?
    && |L.defaults.identity| == |L.identities| && |L.defaults.funding| == |L.fundings|
    && (forall i :: 0 <= i < |L.defaults.identity| ==> !L.defaults.identity[i])
    && (forall i :: 0 <= i < |L.defaults.funding| ==> !L.defaults.funding[i])
  }

  // ---------------------------------------------------------------------------
  // Capture: form to record
  // ---------------------------------------------------------------------------

  /** The positions of the checked boxes, in control order, which is the
      document order a selector query lists them in. */
  function CheckedIndices(checks: seq<bool>): (r: seq<nat>)
    ensures forall k :: 0 <= k < |r| ==> r[k] < |checks| && checks[r[k]]
    ensures forall i :: 0 <= i < |checks| && checks[i] ==> i in r
    ensures forall a, b :: 0 <= a < b < |r| ==> r[a] < r[b]
    decreases |checks|
  {
    if |checks| == 0 then []
    else
      var rest := CheckedIndices(checks[..|checks| - 1]);
      if checks[|checks| - 1] then rest + [|checks| - 1] else rest
  }

  /** The values of the checked boxes of a group, in control order: what
      `getCheckedValues` collects. */
  function CheckedValues(options: seq<string>, checks: seq<bool>): (r: seq<string>)
    requires |options| == |checks|
    ensures forall k :: 0 <= k < |r| ==> exists i :: 0 <= i < |checks| && checks[i] && options[i] == r[k]
  {
    var ix := CheckedIndices(checks);
    var r := seq(|ix|, k requires 0 <= k < |ix| => options[ix[k]]);
    assert forall k :: 0 <= k < |r| ==> ix[k] < |checks| && checks[ix[k]] && options[ix[k]] == r[k];
    r
  }

  /** The value of the checked option of a radio group, or nothing when no
      option is checked. */
  function Chosen(options: seq<string>, c: Option<nat>): (r: Option<string>)
    requires ChoiceFits(c, options)
    ensures r.None? <==> c.None?
    ensures r.Some? ==> r.value == options[c.value]
  {
    match c
    case None => None
    case Some(i) => Some(options[i])
  }

  /** The record `handleBasicsSubmit` reads off the form. */
  function Capture(L: Layout, f: Fields): (b: Basics)
    requires Fits(L, f)
    ensures b.organizationName == f.name && b.yearFounded == f.year
    ensures b.location == f.location && b.isRemote == f.remote
    ensures b.organizationSize.None? <==> f.size.None?
    ensures f.size.Some? ==> b.organizationSize == Some(L.sizes[f.size.value])
    ensures b.legalStructure.None? <==> f.legal.None?
    ensures f.legal.Some? ==> b.legalStructure == Some(L.legals[f.legal.value])
    ensures var ix := CheckedIndices(f.identity);
            |b.identity| == |ix| && forall k :: 0 <= k < |ix| ==> b.identity[k] == L.identities[ix[k]]
    ensures var ix := CheckedIndices(f.funding);
            |b.fundingSources| == |ix| && forall k :: 0 <= k < |ix| ==> b.fundingSources[k] == L.fundings[ix[k]]
  {
    Basics(
      f.name,
      Chosen(L.sizes, f.size),
      f.year,
      f.location,
      f.remote,
      CheckedValues(L.identities, f.identity),
      Chosen(L.legals, f.legal),
      CheckedValues(L.fundings, f.funding))
  }

  // ---------------------------------------------------------------------------
  // Render: record to form
  // ---------------------------------------------------------------------------

  /** The option a lookup by value finds: the first one of the group, in
      document order, whose value is `s`, if there is one. */
  function FirstIndex(options: seq<string>, s: string): (r: Option<nat>)
    ensures r.Some? ==> r.value < |options| && options[r.value] == s
                        && forall j :: 0 <= j < r.value ==> options[j] != s
    ensures r.None? <==> s !in options
    decreases |options|
  {
    if |options| == 0 then None
    else if options[0] == s then Some(0)
    else
      match FirstIndex(options[1..], s)
      case None => None
      case Some(i) => Some(i + 1)
  }

  /** Whether a value a render reads can be shown: a falsy value is skipped
      (or gives the empty text), and a truthy one must convert to text. */
  predicate Shows(v: Value) {
    !Truthy(v) || ToText(v).Normal?
  }

  /** Whether `x?.forEach(...)` runs to the end: nothing to do for null or
      undefined, and otherwise an array whose every element converts. */
  predicate ListShows(x: Value) {
    Nullish(x) || (x.Arr? && forall k :: 0 <= k < |x.items| ==> ToText(x.items[k]).Normal?)
  }

  /** The elements a `forEach` visits: none unless `x` is an array. */
  function Elements(x: Value): seq<Value> {
    if x.Arr? then x.items else []
  }

  /** A radio group after a render step for value `x`: when `x` is truthy and
      its text is the value of some option, the first such option is checked;
      otherwise the group is as it was. */
  predicate RadioSet(options: seq<string>, before: Option<nat>, x: Value, after: Option<nat>) {
    if Truthy(x) && ToText(x).Normal? && ToText(x).value in options then
      && after.Some? && after.value < |options| && options[after.value] == ToText(x).value
      && forall j :: 0 <= j < after.value ==> options[j] != ToText(x).value
    else after == before
  }

  /** Some element's text is `s`. */
  predicate Listed(s: string, items: seq<Value>) {
    exists k :: 0 <= k < |items| && ToText(items[k]) == Normal(s)
  }

  /** No earlier option carries the value of option `j`. */
  predicate FirstOfValue(options: seq<string>, j: nat)
    requires j < |options|
  {
    forall i :: 0 <= i < j ==> options[i] != options[j]
  }

  /** A checkbox group after checking the element texts: a box is checked
      exactly when it was before, or when it is the first box whose value one
      of the elements names. */
  predicate BoxesSet(options: seq<string>, before: seq<bool>, items: seq<Value>, after: seq<bool>)
    requires |before| == |options| == |after|
  {
    forall j :: 0 <= j < |options| ==>
      after[j] == (before[j] || (Listed(options[j], items) && FirstOfValue(options, j)))
  }

  /** The text an input holds after being assigned `x`, or the empty text when
      `x` is falsy. A string shows as itself; converting anything else may throw. */
  function TextOf(x: Value): (r: Completion<string>)
    ensures !Truthy(x) ==> r == Normal("")
    ensures x.Str? ==> r == Normal(x.s)
    ensures r.Normal? <==> Shows(x)
    ensures Truthy(x) && r.Normal? ==> r == ToText(x)
  {
    if Truthy(x) then ToText(x) else Normal("")
  }

  /** A truthy `x` selects the option of the group whose value is `x`'s text,
      when there is one; a falsy `x`, or a text no option carries, leaves the
      group as it was. The conversion may throw. */
  function ChooseRadio(options: seq<string>, current: Option<nat>, x: Value): (r: Completion<Option<nat>>)
    ensures r.Normal? <==> Shows(x)
    ensures r.Normal? ==> RadioSet(options, current, x, r.value)
    ensures r.Normal? && r.value.Some? ==> r.value == current || r.value.value < |options|
  {
    if !Truthy(x) then Normal(current)
    else
      match ToText(x)
      case Thrown => Thrown
      case Normal(s) =>
        match FirstIndex(options, s)
        case None => Normal(current)
        case Some(i) => Normal(Some(i))
  }

  /** Checking the box named by one text, and what that does to `BoxesSet`. */
  lemma MarkOne(options: seq<string>, marks: seq<bool>, items: seq<Value>, s: string, after: seq<bool>)
    requires |marks| == |options| == |after| && |items| > 0 && ToText(items[0]) == Normal(s)
    ensures var marks' := match FirstIndex(options, s)
                          case None => marks
                          case Some(i) => marks[i := true];
            BoxesSet(options, marks', items[1..], after) ==> BoxesSet(options, marks, items, after)
  {
    var marks' := match FirstIndex(options, s)
                  case None => marks
                  case Some(i) => marks[i := true];
    if BoxesSet(options, marks', items[1..], after) {
      forall j | 0 <= j < |options|
        ensures after[j] == (marks[j] || (Listed(options[j], items) && FirstOfValue(options, j)))
      {
        assert Listed(options[j], items) <==> options[j] == s || Listed(options[j], items[1..]) by {
          if Listed(options[j], items) {
            var k :| 0 <= k < |items| && ToText(items[k]) == Normal(options[j]);
            if k > 0 { assert items[1..][k - 1] == items[k]; }
          }
          if Listed(options[j], items[1..]) {
            var k :| 0 <= k < |items[1..]| && ToText(items[1..][k]) == Normal(options[j]);
            assert items[k + 1] == items[1..][k];
          }
        }
        assert marks'[j] == (marks[j] || (options[j] == s && FirstOfValue(options, j)));
      }
    }
  }

  /** Checks the box of each text in `items`, in order: for each element, the
      first box of the group whose value is its text, if any. The run
      completes exactly when every element converts to text; it never
      unchecks a box, and a completed run checks exactly the boxes
      `BoxesSet` names. A conversion that throws keeps the boxes checked so far. */
  function MarkItems(options: seq<string>, marks: seq<bool>, items: seq<Value>): (r: Run<seq<bool>>)
    requires |marks| == |options|
    ensures |r.state| == |options|
    ensures r.ok <==> forall k :: 0 <= k < |items| ==> ToText(items[k]).Normal?
    ensures forall j :: 0 <= j < |options| && marks[j] ==> r.state[j]
    ensures r.ok ==> BoxesSet(options, marks, items, r.state)
    decreases |items|
  {
    if |items| == 0 then Run(marks, true)
    else
      match ToText(items[0])
      case Thrown => Run(marks, false)
      case Normal(s) =>
        var marks' := match FirstIndex(options, s)
                      case None => marks
                      case Some(i) => marks[i := true];
        var rest := MarkItems(options, marks', items[1..]);
        assert rest.ok <==> forall k :: 0 <= k < |items| ==> ToText(items[k]).Normal? by {
          assert forall k :: 1 <= k < |items| ==> items[k] == items[1..][k - 1];
        }
        MarkOne(options, marks, items, s, rest.state);
        rest
  }

  /** `x?.forEach(...)`: nothing for null/undefined, a TypeError for any other
      non-array (a string or object has no callable `forEach`), and for an
      array the boxes its elements name. */
  function CheckEach(options: seq<string>, marks: seq<bool>, x: Value): (r: Run<seq<bool>>)
    requires |marks| == |options|
    ensures |r.state| == |options|
    ensures r.ok <==> ListShows(x)
    ensures !x.Arr? ==> r.state == marks
    ensures forall j :: 0 <= j < |options| && marks[j] ==> r.state[j]
    ensures r.ok ==> BoxesSet(options, marks, Elements(x), r.state)
  {
    if Nullish(x) then Run(marks, true)
    else if !x.Arr? then Run(marks, false)
    else MarkItems(options, marks, x.items)
  }

  /** The eight properties of a basics record that `renderUI` reads. */
  datatype Read = Read(
    name: Value, size: Value, year: Value, location: Value,
    remote: Value, identity: Value, legal: Value, funding: Value)

  function ReadBasics(b: Value): Read {
    Read(
      Prop(b, "organizationName"), Prop(b, "organizationSize"), Prop(b, "yearFounded"),
      Prop(b, "location"), Prop(b, "isRemote"), Prop(b, "identity"),
      Prop(b, "legalStructure"), Prop(b, "fundingSources"))
  }

  /** The text inputs, the size radio and the remote box, in source order. It
      completes exactly when the four values it converts can be shown, and
      then holds their texts, the size the radio rule picks and the remote
      flag's truthiness. A size that is falsy leaves the radio as it was even
      when an earlier write throws. */
  function FillFirst(L: Layout, f: Fields, x: Read): (r: Run<Fields>)
    requires Fits(L, f)
    ensures Fits(L, r.state)
    ensures r.state.identity == f.identity && r.state.legal == f.legal && r.state.funding == f.funding
    ensures r.ok <==> Shows(x.name) && Shows(x.size) && Shows(x.year) && Shows(x.location)
    ensures r.ok ==> && r.state.name == TextOf(x.name).value && r.state.year == TextOf(x.year).value
                     && r.state.location == TextOf(x.location).value && r.state.remote == Truthy(x.remote)
                     && RadioSet(L.sizes, f.size, x.size, r.state.size)
    ensures !Truthy(x.size) ==> r.state.size == f.size
  {
    var name := TextOf(x.name);
    if name.Thrown? then Run(f, false) else
    var f1 := f.(name := name.value);
    var size := ChooseRadio(L.sizes, f1.size, x.size);
    if size.Thrown? then Run(f1, false) else
    var f2 := f1.(size := size.value);
    var year := TextOf(x.year);
    if year.Thrown? then Run(f2, false) else
    var f3 := f2.(year := year.value);
    var location := TextOf(x.location);
    if location.Thrown? then Run(f3, false) else
    Run(f3.(location := location.value, remote := Truthy(x.remote)), true)
  }

  /** The identity boxes, the legal-structure radio and the funding boxes. It
      leaves the other fields alone and completes exactly when both lists can
      be walked and the legal value shown; then each group is set by the rule
      for its kind. A falsy legal value or a null or missing list leaves its
      group as it was, and no box is ever unchecked. */
  function FillRest(L: Layout, f: Fields, x: Read): (r: Run<Fields>)
    requires Fits(L, f)
    ensures Fits(L, r.state)
    ensures r.state.name == f.name && r.state.size == f.size && r.state.year == f.year
    ensures r.state.location == f.location && r.state.remote == f.remote
    ensures r.ok <==> ListShows(x.identity) && Shows(x.legal) && ListShows(x.funding)
    ensures r.ok ==> && BoxesSet(L.identities, f.identity, Elements(x.identity), r.state.identity)
                     && RadioSet(L.legals, f.legal, x.legal, r.state.legal)
                     && BoxesSet(L.fundings, f.funding, Elements(x.funding), r.state.funding)
    ensures !Truthy(x.legal) ==> r.state.legal == f.legal
    ensures Nullish(x.identity) ==> r.state.identity == f.identity
    ensures Nullish(x.funding) ==> r.state.funding == f.funding
    ensures forall j :: 0 <= j < |f.identity| && f.identity[j] ==> r.state.identity[j]
    ensures forall j :: 0 <= j < |f.funding| && f.funding[j] ==> r.state.funding[j]
  {
    var identity := CheckEach(L.identities, f.identity, x.identity);
    var f5 := f.(identity := identity.state);
    if !identity.ok then Run(f5, false) else
    var legal := ChooseRadio(L.legals, f5.legal, x.legal);
    if legal.Thrown? then Run(f5, false) else
    var f6 := f5.(legal := legal.value);
    var funding := CheckEach(L.fundings, f6.funding, x.funding);
    Run(f6.(funding := funding.state), funding.ok)
  }

  /** Repopulate the form from a truthy `basics`, field by field in source
      order; the first throw stops the rest. For any record, not only a
      submitted one: a completed run shows each text property as text (a
      falsy or missing one as the empty text), the remote box as the flag's
      truthiness, each radio and checkbox group as its rule says; a falsy
      radio value or a null or missing list leaves its group as `f` had it,
      and no box of `f` is ever unchecked. */
  function Populate(L: Layout, f: Fields, b: Value): (r: Run<Fields>)
    requires Fits(L, f)
    ensures Fits(L, r.state)
    ensures var x := ReadBasics(b);
            r.ok <==> && Shows(x.name) && Shows(x.size) && Shows(x.year) && Shows(x.location)
                      && ListShows(x.identity) && Shows(x.legal) && ListShows(x.funding)
    ensures r.ok ==> && r.state.name == TextOf(Prop(b, "organizationName")).value
                     && r.state.year == TextOf(Prop(b, "yearFounded")).value
                     && r.state.location == TextOf(Prop(b, "location")).value
                     && r.state.remote == Truthy(Prop(b, "isRemote"))
    ensures r.ok ==> && RadioSet(L.sizes, f.size, Prop(b, "organizationSize"), r.state.size)
                     && RadioSet(L.legals, f.legal, Prop(b, "legalStructure"), r.state.legal)
    ensures r.ok ==> && BoxesSet(L.identities, f.identity, Elements(Prop(b, "identity")), r.state.identity)
                     && BoxesSet(L.fundings, f.funding, Elements(Prop(b, "fundingSources")), r.state.funding)
    ensures !Truthy(Prop(b, "organizationSize")) ==> r.state.size == f.size
    ensures !Truthy(Prop(b, "legalStructure")) ==> r.state.legal == f.legal
    ensures Nullish(Prop(b, "identity")) ==> r.state.identity == f.identity
    ensures Nullish(Prop(b, "fundingSources")) ==> r.state.funding == f.funding
    ensures forall j :: 0 <= j < |f.identity| && f.identity[j] ==> r.state.identity[j]
    ensures forall j :: 0 <= j < |f.funding| && f.funding[j] ==> r.state.funding[j]
  {
    var x := ReadBasics(b);
    var first := FillFirst(L, f, x);
    if !first.ok then first else FillRest(L, first.state, x)
  }

  /** What the user sees: the basics form and the "current state" step card,
      which is either locked or unlocked, and the number of completed steps the
      progress bar shows (out of three). */
  datatype Ui = Ui(form: Fields, unlocked: bool, stepsDone: nat)

  /** `renderUI`. Reading `appData.phase1.theBasics` may throw before anything
      is written; otherwise the form is reset, repopulated when the basics are
      truthy, and then the step card is unlocked and progress set to one of
      three steps. A throw while repopulating leaves the form part-written and
      the card as it was. Nothing ever locks the card again. */
  function Render(L: Layout, app: Value, ui: Ui): (r: Run<Ui>)
    requires ValidLayout(L) && Fits(L, ui.form)
    ensures Fits(L, r.state.form)
    ensures ui.unlocked ==> r.state.unlocked
    ensures r.ok <==> BasicsOf(app).Normal? &&
                      (Truthy(BasicsOf(app).value) ==> Populate(L, L.defaults, BasicsOf(app).value).ok)
    ensures r.ok ==> r.state.unlocked == (ui.unlocked || Truthy(BasicsOf(app).value))
    ensures r.ok ==> r.state.stepsDone == (if Truthy(BasicsOf(app).value) then 1 else ui.stepsDone)
    ensures !r.ok ==> r.state.unlocked == ui.unlocked && r.state.stepsDone == ui.stepsDone
    ensures BasicsOf(app).Thrown? ==> r == Run(ui, false)
    ensures BasicsOf(app).Normal? && !Truthy(BasicsOf(app).value) ==> r.state == ui.(form := L.defaults)
    ensures BasicsOf(app).Normal? && Truthy(BasicsOf(app).value) ==>
              r.state.form == Populate(L, L.defaults, BasicsOf(app).value).state
  {
    match BasicsOf(app)
    case Thrown => Run(ui, false)
    case Normal(basics) =>
      var filled := if Truthy(basics) then Populate(L, L.defaults, basics) else Run(L.defaults, true);
      if !filled.ok then Run(ui.(form := filled.state), false)
      else if Truthy(basics) then Run(Ui(filled.state, true, 1), true)
      else Run(ui.(form := filled.state), true)
  }
}

/** Facts relating `Capture` and `Render`. */
module FormLaws {
  import opened Wrappers
  import opened JsValues
  import opened Profile
  import opened Form

  /** A value is among the captured checkbox values exactly when some checked
      box carries it. */
  lemma CheckedValuesMembers(options: seq<string>, checks: seq<bool>)
    requires |options| == |checks|
    ensures forall v :: v in CheckedValues(options, checks) <==>
                          exists i :: 0 <= i < |checks| && checks[i] && options[i] == v
  {
    var ix := CheckedIndices(checks);
    var r := CheckedValues(options, checks);
    forall v | exists i :: 0 <= i < |checks| && checks[i] && options[i] == v
      ensures v in r
    {
      var i :| 0 <= i < |checks| && checks[i] && options[i] == v;
      var k :| 0 <= k < |ix| && ix[k] == i;
      assert r[k] == v;
    }
  }

  /** With distinct option values, a box's value is captured exactly when the
      box is checked. */
  lemma CapturedIffChecked(options: seq<string>, checks: seq<bool>, j: nat)
    requires |options| == |checks| && Distinct(options) && j < |options|
    ensures options[j] in CheckedValues(options, checks) <==> checks[j]
  {
    CheckedValuesMembers(options, checks);
  }

  /** Marking a list of strings never throws, and with distinct option values it
      checks exactly the boxes whose value is in the list (on top of those
      already checked). */
  lemma {:induction false} MarkTexts(options: seq<string>, marks: seq<bool>, xs: seq<string>)
    requires |marks| == |options|
    ensures MarkItems(options, marks, TextList(xs).items).ok
    ensures Distinct(options) ==>
              forall j :: 0 <= j < |options| ==>
                MarkItems(options, marks, TextList(xs).items).state[j] == (marks[j] || options[j] in xs)
    decreases |xs|
  {
    var items := TextList(xs).items;
    if |xs| > 0 {
      assert items[1..] == TextList(xs[1..]).items;
      assert ToText(items[0]) == Normal(xs[0]);
      var marks' := match FirstIndex(options, xs[0])
                    case None => marks
                    case Some(i) => marks[i := true];
      assert MarkItems(options, marks, items) == MarkItems(options, marks', items[1..]);
      MarkTexts(options, marks', xs[1..]);
      if Distinct(options) {
        forall j | 0 <= j < |options|
          ensures marks'[j] == (marks[j] || options[j] == xs[0])
        {
        }
        assert forall v :: v in xs <==> v == xs[0] || v in xs[1..] by {
          assert xs == [xs[0]] + xs[1..];
        }
      }
    }
  }

  /** What `renderUI` reads back from a stored record. */
  lemma ReadEncoded(b: Basics)
    ensures ReadBasics(Encode(b)) == Read(
              Str(b.organizationName), OptionalText(b.organizationSize), Str(b.yearFounded),
              Str(b.location), Bool(b.isRemote), TextList(b.identity),
              OptionalText(b.legalStructure), TextList(b.fundingSources))
  {
  }

  /** A submitted record saved and loaded back: every key with a value comes
      back unchanged, and a radio group left unchecked loses its key. */
  lemma EncodedCopy(b: Basics)
    ensures var c := JsonCopy(Encode(b));
            && c.Obj?
            && ("organizationSize" in c.props <==> b.organizationSize.Some?)
            && ("legalStructure" in c.props <==> b.legalStructure.Some?)
            && ReadBasics(c) == ReadBasics(Encode(b))
  {
    var e := Encode(b);
    ReadEncoded(b);
    forall key | key in {"organizationName", "organizationSize", "yearFounded", "location",
                         "isRemote", "identity", "legalStructure", "fundingSources"}
      ensures Prop(JsonCopy(e), key) == Prop(e, key)
    {
      PropOfCopy(e, key);
    }
    assert JsonCopy(TextList(b.identity)) == TextList(b.identity);
    assert JsonCopy(TextList(b.fundingSources)) == TextList(b.fundingSources);
  }

  /** Populating reads nothing but the eight properties. */
  lemma PopulateReadsOnly(L: Layout, f: Fields, b1: Value, b2: Value)
    requires Fits(L, f) && ReadBasics(b1) == ReadBasics(b2)
    ensures Populate(L, f, b1) == Populate(L, f, b2)
  {
  }

  /** Two profiles whose basics are alike in truthiness and in the eight
      properties read render alike. */
  lemma RenderReadsOnly(L: Layout, a1: Value, a2: Value, ui: Ui)
    requires ValidLayout(L) && Fits(L, ui.form)
    requires BasicsOf(a1).Normal? && BasicsOf(a2).Normal?
    requires Truthy(BasicsOf(a1).value) == Truthy(BasicsOf(a2).value)
    requires ReadBasics(BasicsOf(a1).value) == ReadBasics(BasicsOf(a2).value)
    ensures Render(L, a1, ui) == Render(L, a2, ui)
  {
    PopulateReadsOnly(L, L.defaults, BasicsOf(a1).value, BasicsOf(a2).value);
  }

  /** Rendering a submitted record never throws. */
  lemma PopulateEncodedCompletes(L: Layout, f: Fields, b: Basics)
    requires Fits(L, f)
    ensures Populate(L, f, Encode(b)).ok
  {
    ReadEncoded(b);
    var x := ReadBasics(Encode(b));
    var first := FillFirst(L, f, x);
    assert first.ok;
    MarkTexts(L.identities, first.state.identity, b.identity);
    MarkTexts(L.fundings, first.state.funding, b.fundingSources);
  }

  /** The radio value a record carries, put back into the group, checks the
      option it was read from. */
  lemma RadioRoundTrip(options: seq<string>, c: Option<nat>)
    requires ChoiceFits(c, options) && Distinct(options)
    requires forall i :: 0 <= i < |options| ==> options[i] != ""
    ensures ChooseRadio(options, None, OptionalText(Chosen(options, c))) == Normal(c)
  {
    if c.Some? {
      var s := options[c.value];
      assert FirstIndex(options, s).Some?;
    }
  }

  /** Checking the captured values of a group whose boxes all start unchecked
      restores exactly the boxes they were captured from. */
  lemma MarkCaptured(options: seq<string>, blank: seq<bool>, checks: seq<bool>)
    requires |options| == |checks| == |blank| && Distinct(options)
    requires forall i :: 0 <= i < |blank| ==> !blank[i]
    ensures MarkItems(options, blank, TextList(CheckedValues(options, checks)).items) == Run(checks, true)
  {
    var vs := CheckedValues(options, checks);
    MarkTexts(options, blank, vs);
    var marks := MarkItems(options, blank, TextList(vs).items).state;
    forall j | 0 <= j < |options|
      ensures marks[j] == checks[j]
    {
      CapturedIffChecked(options, checks, j);
    }
    assert marks == checks;
  }

  /** The first half of a render of a captured record restores the text
      inputs, the size radio and the remote box. */
  lemma FillFirstRoundTrip(L: Layout, f: Fields)
    requires PlainLayout(L) && Fits(L, f)
    ensures FillFirst(L, L.defaults, ReadBasics(Encode(Capture(L, f))))
            == Run(f.(identity := L.defaults.identity, legal := None, funding := L.defaults.funding), true)
  {
    ReadEncoded(Capture(L, f));
    RadioRoundTrip(L.sizes, f.size);
  }

  /** The second half restores the two checkbox groups and the legal radio. */
  lemma FillRestRoundTrip(L: Layout, f: Fields)
    requires PlainLayout(L) && Fits(L, f)
    ensures FillRest(L, f.(identity := L.defaults.identity, legal := None, funding := L.defaults.funding),
                     ReadBasics(Encode(Capture(L, f)))) == Run(f, true)
  {
    var b := Capture(L, f);
    ReadEncoded(b);
    RadioRoundTrip(L.legals, f.legal);
    MarkCaptured(L.identities, L.defaults.identity, f.identity);
    MarkCaptured(L.fundings, L.defaults.funding, f.funding);
  }

  /** For any form, rendering the record captured from it onto a reset form
      gives back that very form, so capturing again gives back the same record:
      submit does not visibly change the form. */
  lemma RenderCaptureRoundTrip(L: Layout, f: Fields)
    requires PlainLayout(L) && Fits(L, f)
    ensures Populate(L, L.defaults, Encode(Capture(L, f))) == Run(f, true)
    ensures Capture(L, Populate(L, L.defaults, Encode(Capture(L, f))).state) == Capture(L, f)
  {
    FillFirstRoundTrip(L, f);
    FillRestRoundTrip(L, f);
  }
}

=== FILE: js_values.dfy ===
/** The JavaScript values the profile handlers read and write, with the three
    pieces of language semantics they rely on: truthiness (`if (x)`, `!x`,
    `x || d`), property access (`v.key`) and string conversion (template
    literals and assignments to an input's `value`). */
module JsValues {
  import opened Wrappers

  /** A JavaScript value as produced by `JSON.parse` or by the basics form.
      Numbers are kept integral; `Undefined` appears only in captured records
      (an unchecked radio group) and as the result of a missing property. */
  datatype Value =
    | Undefined
    | Null
    | Bool(b: bool)
    | Num(n: int)
    | Str(s: string)
    | Arr(items: seq<Value>)
    | Obj(props: map<string, Value>)

  predicate Nullish(v: Value) {
    v.Undefined? || v.Null?
  }

  /** JavaScript's ToBoolean: the falsy values are undefined, null, false, 0 and "". */
  predicate Truthy(v: Value) {
    match v
    case Undefined => false
    case Null => false
    case Bool(b) => b
    case Num(n) => n != 0
    case Str(s) => s != ""
    case Arr(_) => true
    case Obj(_) => true
  }

  /** `v.key` on a value that is not null or undefined. Only own properties of a
      parsed object are visible: the keys the profile code reads (`phase1`,
      `theBasics`, `organizationName`, ...) name nothing on any prototype. */
  function Prop(v: Value, key: string): (r: Value)
    ensures r != Undefined ==> v.Obj? && key in v.props && v.props[key] == r
    ensures v.Obj? && key in v.props ==> r == v.props[key]
  {
    if v.Obj? && key in v.props then v.props[key] else Undefined
  }

  /** `v.key` in general: reading a property of null or undefined throws a TypeError. */
  function Get(v: Value, key: string): (r: Completion<Value>)
    ensures r.Thrown? <==> Nullish(v)
    ensures r.Normal? ==> r.value == Prop(v, key)
  {
    if Nullish(v) then Thrown else Normal(Prop(v, key))
  }

  function DigitChar(d: nat): (c: char)
    requires d < 10
    ensures '0' <= c <= '9'
  {
    "0123456789"[d]
  }

  /** Decimal text of a natural number, most significant digit first. */
  function NatText(n: nat): (s: string)
    ensures |s| > 0
    ensures forall i :: 0 <= i < |s| ==> '0' <= s[i] <= '9'
    decreases n
  {
    if n < 10 then [DigitChar(n)] else NatText(n / 10) + [DigitChar(n % 10)]
  }

  /** Number::toString for an integral number. */
  function NumberText(n: int): string {
    if n < 0 then "-" + NatText(-n) else NatText(n)
  }

  /** JavaScript's ToString, as a template literal applies it. An array is
      joined with commas, null and undefined elements giving "". A plain object
      gives "[object Object]" unless it carries its own `toString` key: a parsed
      object's `toString` is not callable, and `Object.prototype.valueOf`
      returns an object, so the conversion throws a TypeError. */
  function ToText(v: Value): (r: Completion<string>)
    ensures v.Str? ==> r == Normal(v.s)
    ensures (v.Obj? && "toString" in v.props) ==> r.Thrown?
  {
    match v
    case Undefined => Normal("undefined")
    case Null => Normal("null")
    case Bool(b) => Normal(if b then "true" else "false")
    case Num(n) => Normal(NumberText(n))
    case Str(s) => Normal(s)
    case Arr(items) => JoinText(items)
    case Obj(props) => if "toString" in props then Thrown else Normal("[object Object]")
  }

  /** `Array.prototype.join(",")` over the converted elements; the first
      element whose conversion throws ends the join. */
  function JoinText(items: seq<Value>): (r: Completion<string>)
    ensures |items| == 0 ==> r == Normal("")
  {
    if |items| == 0 then Normal("")
    else
      var head := if Nullish(items[0]) then Normal("") else ToText(items[0]);
      if head.Thrown? then Thrown
      else if |items| == 1 then head
      else
        var tail := JoinText(items[1..]);
        if tail.Thrown? then Thrown else Normal(head.value + "," + tail.value)
  }

  /** `JSON.parse(JSON.stringify(v))` for an object or array: object keys whose
      value is undefined are dropped and undefined array elements become null;
      every other value comes back as it was. (A parsed object's `toJSON` key
      is not callable and so is ignored.) */
  function JsonCopy(v: Value): (r: Value)
    ensures r.Obj? <==> v.Obj?
    ensures r.Arr? <==> v.Arr?
    ensures v.Undefined? <==> r.Undefined?
  {
    match v
    case Arr(items) =>
      Arr(seq(|items|, i requires 0 <= i < |items| => if items[i].Undefined? then Null else JsonCopy(items[i])))
    case Obj(props) =>
      Obj(map k | k in props && !props[k].Undefined? :: JsonCopy(props[k]))
    case _ => v
  }

  /** Reading a property of the copy reads the copy of the property: a dropped
      key reads as undefined, just as the undefined it held. */
  lemma PropOfCopy(v: Value, key: string)
    ensures Prop(JsonCopy(v), key) == JsonCopy(Prop(v, key))
  {
  }
}

=== FILE: profile.dfy ===
/** The profile record held in the global `appData`: its default value, the
    basics record the form submits, and the two writes the handlers make to it
    (reset to the default, replace `phase1.theBasics`). */
module Profile {
  import opened Wrappers
  import opened JsValues

  const Phase1Keys: set<string> := {"theBasics", "currentState", "futureState"}

  /** `initialAppData`: phase 1 with all three records null. */
  const InitialAppData: Value :=
    Obj(map["phase1" := Obj(map["theBasics" := Null, "currentState" := Null, "futureState" := Null])])

  /** `appData.phase1.theBasics`, which throws when `appData` or its `phase1` is
      null or undefined (a loaded file need not have either). */
  function BasicsOf(app: Value): (r: Completion<Value>)
    ensures r.Thrown? <==> Nullish(app) || Nullish(Prop(app, "phase1"))
    ensures r.Normal? ==> r.value == Prop(Prop(app, "phase1"), "theBasics")
  {
    match Get(app, "phase1")
    case Thrown => Thrown
    case Normal(p) => Get(p, "theBasics")
  }

  /** `resetAppData`: a deep copy of the default, made by a JSON round trip.
      Values are immutable here, so the copy shares nothing with any other
      profile by construction; what matters is the shape it has. */
  function Reset(): (r: Value)
    ensures r.Obj? && r.props.Keys == {"phase1"}
    ensures var p := Prop(r, "phase1");
            p.Obj? && p.props.Keys == Phase1Keys
            && forall k :: k in p.props ==> p.props[k] == Null
    ensures BasicsOf(r) == Normal(Null)
  {
    DefaultSurvivesCopy();
    JsonCopy(InitialAppData)
  }

  /** The default holds no undefined, so its JSON round trip is itself. */
  lemma DefaultSurvivesCopy()
    ensures JsonCopy(InitialAppData) == InitialAppData
  {
    var inner := Prop(InitialAppData, "phase1");
    assert JsonCopy(inner) == inner;
  }

  /** The record `handleBasicsSubmit` builds from the form. A radio group with
      nothing checked gives `None` (JavaScript `undefined`); a checkbox group
      gives the values of its checked boxes. */
  datatype Basics = Basics(
    organizationName: string,
    organizationSize: Option<string>,
    yearFounded: string,
    location: string,
    isRemote: bool,
    identity: seq<string>,
    legalStructure: Option<string>,
    fundingSources: seq<string>)

  function OptionalText(o: Option<string>): Value {
    match o
    case None => Undefined
    case Some(s) => Str(s)
  }

  function TextList(xs: seq<string>): (r: Value)
    ensures r.Arr? && |r.items| == |xs|
    ensures forall i :: 0 <= i < |xs| ==> r.items[i] == Str(xs[i])
  {
    Arr(seq(|xs|, i requires 0 <= i < |xs| => Str(xs[i])))
  }

  /** The eight keys of the object literal `handleBasicsSubmit` builds. */
  const BasicsKeys: set<string> := {
    "organizationName", "organizationSize", "yearFounded", "location",
    "isRemote", "identity", "legalStructure", "fundingSources"}

  /** The object literal assigned at `appData.phase1.theBasics`: an object, so
      truthy even when every field is empty, holding exactly the eight keys;
      an unchecked radio group's key holds undefined. */
  function Encode(b: Basics): (r: Value)
    ensures r.Obj? && Truthy(r) && r.props.Keys == BasicsKeys
    ensures r.props["organizationSize"].Undefined? <==> b.organizationSize.None?
    ensures r.props["legalStructure"].Undefined? <==> b.legalStructure.None?
    ensures forall k :: k in r.props && k !in {"organizationSize", "legalStructure"} ==> !Nullish(r.props[k])
  {
    Obj(map[
      "organizationName" := Str(b.organizationName),
      "organizationSize" := OptionalText(b.organizationSize),
      "yearFounded" := Str(b.yearFounded),
      "location" := Str(b.location),
      "isRemote" := Bool(b.isRemote),
      "identity" := TextList(b.identity),
      "legalStructure" := OptionalText(b.legalStructure),
      "fundingSources" := TextList(b.fundingSources)
    ])
  }

  /** A list of strings is stored element for element, so distinct lists are
      stored as distinct arrays. */
  lemma TextListInjective(xs: seq<string>, ys: seq<string>)
    ensures TextList(xs) == TextList(ys) ==> xs == ys
  {
    if TextList(xs) == TextList(ys) {
      assert |xs| == |ys|;
      forall i | 0 <= i < |xs|
        ensures xs[i] == ys[i]
      {
        assert TextList(xs).items[i] == TextList(ys).items[i];
      }
    }
  }

  /** The stored record determines the form's record: no two records are
      stored as the same value, so nothing the form captured is lost. */
  lemma EncodeInjective(a: Basics, b: Basics)
    ensures Encode(a) == Encode(b) ==> a == b
  {
    if Encode(a) == Encode(b) {
      assert Encode(a).props["identity"] == Encode(b).props["identity"];
      assert Encode(a).props["fundingSources"] == Encode(b).props["fundingSources"];
      TextListInjective(a.identity, b.identity);
      TextListInjective(a.fundingSources, b.fundingSources);
      assert Encode(a).props["organizationSize"] == Encode(b).props["organizationSize"];
      assert Encode(a).props["legalStructure"] == Encode(b).props["legalStructure"];
    }
  }

  /** `appData.phase1.theBasics = <record>` in a non-strict script. Reading
      `phase1` of null/undefined, or writing to a null/undefined `phase1`,
      throws; writing a property of a primitive `phase1` is silently dropped.
      Otherwise the new record replaces the old one wholesale and nothing else
      in `appData` changes. */
  function CommitBasics(app: Value, b: Basics): (r: Completion<Value>)
    ensures r.Thrown? <==> Nullish(app) || Nullish(Prop(app, "phase1"))
    ensures Prop(app, "phase1").Obj? ==>
              && r.Normal? && r.value.Obj?
              && BasicsOf(r.value) == Normal(Encode(b))
              && r.value.props.Keys == app.props.Keys
              && (forall k :: k in app.props && k != "phase1" ==> r.value.props[k] == app.props[k])
              && var p, p' := Prop(app, "phase1"), Prop(r.value, "phase1");
                 p'.Obj? && p'.props.Keys == p.props.Keys + {"theBasics"}
                 && forall k :: k in p.props && k != "theBasics" ==> p'.props[k] == p.props[k]
    ensures !Nullish(app) && !Nullish(Prop(app, "phase1")) && !Prop(app, "phase1").Obj? ==> r == Normal(app)
  {
    match Get(app, "phase1")
    case Thrown => Thrown
    case Normal(p) =>
      if Nullish(p) then Thrown
      else if p.Obj? then Normal(Obj(app.props["phase1" := Obj(p.props["theBasics" := Encode(b)])]))
      else Normal(app)
  }
}

=== FILE: wrappers.dfy ===
/** Small failure-carrying datatypes shared by the model. */
module Wrappers {

  /** A value that may be absent: an unchecked radio group, a failed parse. */
  datatype Option<+T> = None | Some(value: T)

  /** The completion of a JavaScript evaluation: it returns a value normally or
      ends abruptly because something threw (a TypeError, here). */
  datatype Completion<+T> = Normal(value: T) | Thrown

  /** A sequence of DOM writes that may be cut short by an exception: `state` is
      what was written before the throw (or all of it), `ok` says whether the
      whole sequence ran. */
  datatype Run<+T> = Run(state: T, ok: bool)
}
